=== FILE: README.md ===
# AppRunner: measurement-run orchestration, modelled in Dafny

The project models `AppRunner` from the InfluxDB command-line tool. `AppRunner`
drives a containerised application through a series of measurement runs, one
for each InfluxDB database whose name starts with `test`. For each database it:

- rewrites the application's JSON config, so the app writes into that database
  and into `<default output dir>/<database>`;
- restarts the container;
- waits one check interval;
- polls `docker logs` until the application prints
  `Driveline is not rotating, batch skipped.`.

Afterwards, whatever happened, it puts the captured default database and
output directory back and restarts the container. `clean_up` runs two store
operations on every test database: it drops every measurement except
`driveline_power_data`, then re-adds that measurement's first-timestamp marker.

## How the model works

The outside world is an explicit input.

- **Config file.** `Config` holds the two leaves the runner rewrites, plus
  every other leaf, kept as opaque text.
- **Store.** `SHOW DATABASES` is a list of names.
- **Container logs.** `docker logs` answers from a finite script of snapshots.
  Every fetch consumes one snapshot, including the second fetch in
  `run_process`, which exists only to print the logs.
- **Exceptions.** A `Fault(at, kind)` makes the call with trace index `at`
  raise. An `Exception` is caught by `except Exception`. A `BaseException`,
  such as `KeyboardInterrupt`, is not caught: the `finally` block runs and the
  exception leaves `run`.
- **Sleep.** `time.sleep` raises instead of sleeping when CPython cannot
  take the interval: `ValueError` for an interval from -9223372036 s up to
  -1 s, `OverflowError` for any interval beyond plus or minus
  `MaxSleepSeconds` (9223372036 s, the most whole seconds whose nanosecond
  count fits a signed 64-bit integer). Both are `Exception`s.

Every operation returns the state after it: the config file, the calls made so
far as a trace of `Event`s, and the unread log snapshots. It also reports how
the operation ended: `Done`, `Raised`, or `Exhausted` when the log script ran
out. A run whose script runs out ends as `StillPolling`: the real program
would still be in its poll loop and would not have reached `finally`.

Modules follow the class:

- `Text`: `str.startswith` and the `in` test.
- `Discovery`: `get_test_databases`.
- `AppConfig`: the document, `__init__`'s captured defaults, and the rewrites
  done by `switch_database` and `restore_config`.
- `Effects`: calls, faults, and the truncation relation.
- `Visiting`: `is_run_complete`, `run_process`, `switch_database`, and the loop
  body.
- `Orchestrator`: `run` and `clean_up`.
- `FaultCut`: what one exception does to a run.
- `Scenarios`: a worked two-database run whose second restart fails.

Three facts of the code shape the model:

- **Exceptions are swallowed.** `run` catches every `Exception`, prints it,
  and returns normally (app_runner.py:181-182). Only a `BaseException` leaves
  `run`, after the `finally` block.
- **Two restarts on restore.** The restore path restarts the container
  twice: once inside `switch_database(self.default_database)` (line 154,
  reached from line 86), and once at line 187.
- **Brief wrong output directory.** `restore_config` switches to the default
  database by name. So the output directory is first written as
  `<default dir>/<default db>`, and the container is restarted with that value.
  Only then does line 89 put the default directory back. `RestoreFirstWrite` is
  that intermediate document. `RestoreEvents` lists the four calls of the
  `finally` block.

## Model

| member | source | states |
|---|---|---|
| Text.StartsWithIffSplit | src/influxdb_cli/core/app_runner.py:129 | the prefix test behind `str.startswith` holds exactly when the name is the prefix followed by some rest |
| Text.ContainsMeaning | src/influxdb_cli/core/app_runner.py:117 | the left-to-right scan behind Python's `needle in s` succeeds exactly when the needle occurs at some position of `s` |
| Text.ContainsEmbedded | src/influxdb_cli/core/app_runner.py:117 | a needle with arbitrary text before and after it is always found |
| Discovery.Select | src/influxdb_cli/core/app_runner.py:129 | the prefix filter keeps exactly the listed names that start with the prefix, each as often as it was listed, and never more names than were listed |
| Discovery.SelectAppend | src/influxdb_cli/core/app_runner.py:129 | filtering preserves listing order: filtering a concatenation concatenates the filtered parts |
| Discovery.SelectKeepsAll | src/influxdb_cli/core/app_runner.py:129 | a listing whose names all carry the prefix comes back unchanged |
| Discovery.SelectIdempotent | src/influxdb_cli/core/app_runner.py:129 | filtering the filtered list changes nothing |
| Discovery.GetTestDatabases | src/influxdb_cli/core/app_runner.py:121-133 | discovery fails (the `ValueError`) exactly when no listed name starts with the prefix; otherwise it returns the non-empty, order-preserving filter of the listing |
| AppConfig.NewRunner | src/influxdb_cli/core/app_runner.py:37-45 | construction succeeds exactly when both config leaves exist and the container name occurs in the `docker ps` output; a missing results directory is reported before a missing database, and with both leaves present a container name absent from the `docker ps` output gives the `ValueError` (`ContainerNotRunning`); on success the captured defaults are the file's two leaves |
| AppConfig.SwitchedConfig | src/influxdb_cli/core/app_runner.py:135-152 | a named switch selects that database and `<default dir>/<name>`; `None` selects the captured defaults; every other leaf of the document is kept |
| AppConfig.RestoreFirstWrite | src/influxdb_cli/core/app_runner.py:86 | the first write of the restore selects the default database together with the sub-directory named after it, and keeps every other leaf |
| AppConfig.RestoredConfig | src/influxdb_cli/core/app_runner.py:84-91 | after `restore_config` the document holds the captured default database and results directory, and every other leaf is unchanged |
| AppConfig.RestoreIsSwitchToNone | src/influxdb_cli/core/app_runner.py:84-91 | the two-step restore ends in the same document that `switch_database(None)` would write |
| AppConfig.ResultsDirForDiffers | src/influxdb_cli/core/app_runner.py:150 | the output directory of a named switch is never the default results directory, so a switch write cannot be mistaken for a restore |
| Effects.GetLogs | src/influxdb_cli/core/app_runner.py:69-82 | `get_logs` is one `docker logs` call: on success it adds exactly that call and answers the next log snapshot, consuming it; with no snapshot left it consumes nothing; it never touches the config and raises only with the scripted fault |
| Visiting.IsRunCompleteMeaning | src/influxdb_cli/core/app_runner.py:109-119 | a run counts as complete exactly when the completion marker occurs somewhere in the fetched logs |
| Visiting.MarkerCompletes | src/influxdb_cli/core/app_runner.py:117-118 | any log text containing the marker line, whatever surrounds it, completes the run |
| Visiting.CheckRun | src/influxdb_cli/core/app_runner.py:116-119 | one check makes exactly one log fetch, consumes one snapshot and answers whether that snapshot holds the marker; it leaves the config untouched |
| Visiting.WaitRound | src/influxdb_cli/core/app_runner.py:164-167 | the rest of a failed round fetches the logs once more (for printing) and sleeps the check interval, in that order, consuming one snapshot; it leaves the config untouched; an exception comes from the fault or from an interval `time.sleep` rejects |
| Visiting.RunProcess | src/influxdb_cli/core/app_runner.py:156-168 | polling never touches the config; it only adds calls and consumes snapshots; any exception comes from the scripted fault or from an interval `time.sleep` rejects |
| Visiting.RunProcessStopsAtMarker | src/influxdb_cli/core/app_runner.py:163 | `run_process` returns only after a check that saw the marker: the last checked snapshot contains it |
| Visiting.RunProcessMissesBefore | src/influxdb_cli/core/app_runner.py:163-167 | every earlier check saw no marker, so the loop does not stop early |
| Visiting.RunProcessConsumes | src/influxdb_cli/core/app_runner.py:163-167 | a poll with `k` failed checks consumes exactly `2k + 1` snapshots: two per failed round (check and print) and one for the final check |
| Visiting.RunProcessCalls | src/influxdb_cli/core/app_runner.py:163-167 | a poll with `k` failed checks makes exactly the calls fetch, fetch, sleep, repeated `k` times, then one final fetch; so every failed check is followed by a sleep of the check interval |
| Visiting.SwitchDatabase | src/influxdb_cli/core/app_runner.py:135-154 | a switch writes the switched document and then restarts exactly once; on an exception it stops within those two calls; other leaves and the log script are untouched |
| Visiting.Visit | src/influxdb_cli/core/app_runner.py:175-180 | a completed visit leaves the config selecting the visited database; other leaves are kept |
| Visiting.VisitCalls | src/influxdb_cli/core/app_runner.py:175-180 | a completed visit makes the calls switch write, restart, warm-up sleep, then the polling rounds, in that order |
| Visiting.VisitAll | src/influxdb_cli/core/app_runner.py:174-180 | the loop over the test databases only appends calls, never adds log snapshots and keeps every other leaf; an exception comes from the fault or from an interval `time.sleep` rejects, and ends the loop |
| Visiting.RunProcessAddsNoWrite | src/influxdb_cli/core/app_runner.py:163-167 | none of the calls a poll adds, whether or not it completes, is a config write |
| Visiting.VisitAllCalls | src/influxdb_cli/core/app_runner.py:174-180 | a completed loop visits every test database once, in listing order, with one polling record per database |
| Visiting.VisitsRestartOnceEach | src/influxdb_cli/core/app_runner.py:174-180 | the calls of a fault-free loop hold exactly one restart per visited database, since polling never restarts |
| Visiting.VisitAllWrites | src/influxdb_cli/core/app_runner.py:174-176 | every config write of the loop, even an interrupted one, selects one of the listed test databases with its own sub-directory |
| Orchestrator.TryBody | src/influxdb_cli/core/app_runner.py:172-180 | the `try` block keeps every other leaf, and what it raises comes from the fault, an interval `time.sleep` rejects (negative or too large), or discovery finding no test database |
| Orchestrator.Finally | src/influxdb_cli/core/app_runner.py:184-188 | the `finally` block leaves the defaults selected, keeps every other leaf, and only appends calls |
| Orchestrator.Run | src/influxdb_cli/core/app_runner.py:170-188 | every run that leaves the loop ends with the config restored and the four restore calls last; other leaves are kept; only a `BaseException` propagates; a swallowed run saw an `Exception` fault, an interval `time.sleep` rejects (negative or too large), or no test database |
| Orchestrator.TryBodyWritesSelect | src/influxdb_cli/core/app_runner.py:172-180 | no call of the `try` block writes the restored defaults |
| Orchestrator.RunRestoresOnce | src/influxdb_cli/core/app_runner.py:184-188 | the `finally` block runs exactly once: a finished run holds exactly one write of the restored defaults, and it is the second-to-last call |
| Orchestrator.RunStillPollingNotRestored | src/influxdb_cli/core/app_runner.py:163-167 | a run still inside its poll loop has not written the defaults back |
| Orchestrator.TryBodyCalls | src/influxdb_cli/core/app_runner.py:172-180 | a fault-free `try` block that finishes lists the databases and then visits each test database in order |
| Orchestrator.RunVisitsInOrder | src/influxdb_cli/core/app_runner.py:170-188 | a fault-free completed run is exactly: listing, then each test database's visit in listing order, then the restore calls |
| Orchestrator.RunRestartCount | src/influxdb_cli/core/app_runner.py:176-187 | a fault-free completed run restarts the container exactly once per test database plus twice on the restore path |
| Orchestrator.RunWithoutFault | src/influxdb_cli/core/app_runner.py:172-182 | with no fault and an interval `time.sleep` accepts (0 to 9223372036 s) nothing propagates, and the run swallows an exception exactly when no test database exists |
| Orchestrator.VisitAllRejects | src/influxdb_cli/core/app_runner.py:174-177 | with an interval `time.sleep` rejects, the loop over a non-empty list of databases raises an `Exception`: the warm-up sleep after the first switch fails |
| Orchestrator.TryBodyRejects | src/influxdb_cli/core/app_runner.py:172-177 | with no fault, an interval `time.sleep` rejects and at least one listed test database, the `try` block raises an `Exception` |
| Orchestrator.RunRejectedInterval | src/influxdb_cli/core/app_runner.py:172-182 | the complement of `RunWithoutFault`: with no fault, an interval `time.sleep` rejects and at least one test database, the run swallows the error |
| Orchestrator.RunWithoutTestDatabases | src/influxdb_cli/core/app_runner.py:130-131 | with no test database a fault-free run lists, swallows the `ValueError`, and restores; nothing is switched |
| Orchestrator.CleanAll | src/influxdb_cli/core/app_runner.py:95-103 | the cleanup loop never touches the config or the logs; its only exceptions are the scripted fault's |
| Orchestrator.CleanUp | src/influxdb_cli/core/app_runner.py:93-103 | `clean_up` fails with an `Exception` after listing when no test database exists, like discovery; otherwise its exceptions are the fault's |
| Orchestrator.CleanAllCalls | src/influxdb_cli/core/app_runner.py:95-103 | without a fault, each database is first cleaned excluding only `driveline_power_data`, then given that measurement's first-timestamp marker, in order |
| Orchestrator.CleanUpWithoutFault | src/influxdb_cli/core/app_runner.py:93-103 | without a fault `clean_up` cleans exactly the test databases in listing order, or fails right after the listing when there are none |
| FaultCut.RunProcessTruncates | src/influxdb_cli/core/app_runner.py:163-167 | a fault at call `k` cuts a poll at exactly the fault-free poll's first `k` calls |
| FaultCut.VisitAllTruncates | src/influxdb_cli/core/app_runner.py:174-180 | a fault at call `k` cuts the loop at exactly the fault-free loop's first `k` calls; later databases are not visited |
| FaultCut.TryBodyTruncates | src/influxdb_cli/core/app_runner.py:172-180 | the same cut holds for the whole `try` block |
| FaultCut.FaultCutsRun | src/influxdb_cli/core/app_runner.py:172-188 | an exception at call `k` of the `try` block gives exactly the first `k` fault-free calls followed by the restore calls; it is swallowed if it is an `Exception` and propagated otherwise; the config ends restored |
| FaultCut.FaultBeyondTry | src/influxdb_cli/core/app_runner.py:172-188 | a fault for a call the `try` block never reaches leaves the trace and final config of the run unchanged |
| FaultCut.CleanUpFault | src/influxdb_cli/core/app_runner.py:93-103 | an exception during `clean_up` stops it after exactly the first `k` fault-free calls and reaches the caller; later databases stay uncleaned |
| Scenarios.OversizeIntervalSwallowed | src/influxdb_cli/core/app_runner.py:176-182 | with a check interval of 10^10 s and one test database, the warm-up sleep raises `OverflowError` right after the switch; `run` swallows it and restores |
| Scenarios.SecondRestartFails | src/influxdb_cli/core/app_runner.py:170-188 | listing `prod, test_a, test_b`, restart of the second switch failing: `test_a` is visited, the run stops after writing `test_b`'s config, swallows the error, and ends with `db0`/`dir0` restored and the final restart |

## Left out

- `path_passer` and its `FileNotFoundError`: the config file is taken to exist.
- JSON parsing and serialisation (`json.load`, `json.dump(indent=4)`): the document is a record of its two rewritten leaves plus every other leaf.
- A `KeyError` from a missing intermediate dictionary (`data_management`, `influxdb`, `client_data` or `paths`) in `switch_database` or `restore_config`: the document is assumed to keep the shape the constructor read (lines 39-40). Such a `KeyError` in the loop's switch would recur in `restore_config`'s switch inside the `finally` block, and that is beyond a model with no faults in the `finally` block.
- `docker ps`, `docker logs` and `docker restart`: these become a string input, a snapshot script and a `Restart` event. `restart_container` uses `subprocess.run` without `check`, so a failing restart does not raise. A fault at a restart stands for the process call itself failing.
- The InfluxDB store calls (`query("SHOW DATABASES")`, `clean_database`, `add_first_timestamp_to_batch_measurement`): they are a listing input and opaque events. What they do to the store is not modelled.
- Orchestrator.Run and FaultCut.FaultCutsRun: a config write is treated as atomic. A fault at a `WriteConfig` call stands for an exception raised before `open(..., "w")` empties the file (lines 90 and 151). A failure after that point, during `json.dump`, would leave the file empty or partial, so `restore_config`'s `json.load` would raise inside the `finally` block and the file would not be restored; that case is outside the model, which has no faults in the `finally` block.
- AppConfig.Config and AppConfig.Runner: the database and results-directory leaves are taken to be JSON strings. `get_default_database` and the constructor accept any JSON value there (line 67). With a `null` database leaf, `restore_config`'s first switch would take `switch_database`'s `None` branch (lines 144-147) and `RestoreFirstWrite`'s `<dir>/<db>` document would never be written; a `null` results directory would give the path `None/<db>` (line 150).
- `print` and the messages it prints: these have no effect on the config, the calls or the outcome.
- `time.sleep`: modelled as a `Sleep` event that fails exactly for an interval CPython rejects (negative, or above `MaxSleepSeconds`). Real waiting, and the `docker logs --since` window it interacts with, are not modelled.
- The defaults of `since_sec=30`, `check_interval_sec=30` and `check_interval_sec=60`: the interval is always passed explicitly, as `run` passes it to `run_process`.
- Visiting.RunProcess: polling forever, when the marker never appears, is not modelled. The log script is finite, and its end gives the `StillPolling` outcome instead of non-termination.
- Orchestrator.Finally: exceptions raised inside the `finally` block, in `restore_config` or the last restart, are not modelled. No fault is scripted there.
- The command-line modules, `config_manager.py` and the rest of `influx_client.py` are not part of this model.

=== FILE: app_config.dfy ===
/** The application's JSON configuration file as the runner sees it, the
    defaults captured when an `AppRunner` is built, and the two rewrites the
    runner applies to the file (`switch_database`, `restore_config`). */
module AppConfig {
  import opened Common
  import opened Text

  /** A key path into the nested JSON document, outermost key first. */
  type KeyPath = seq<string>

  /** `config_data["data_management"]["influxdb"]["client_data"]["database"]` */
  const DatabaseKey: KeyPath := ["data_management", "influxdb", "client_data", "database"]

  /** `config_data["paths"]["output_dir"]` */
  const OutputDirKey: KeyPath := ["paths", "output_dir"]

  /** The configuration document: the two leaves the runner reads and
      rewrites (`None` when the leaf is absent), and every other leaf, keyed
      by its path and kept as opaque text. `others` is meant to hold only
      paths that neither are nor extend nor lead to `DatabaseKey` or
      `OutputDirKey`; the type does not enforce this, and no property here
      depends on it. */
  datatype Config = Config(database: Option<string>, outputDir: Option<string>, others: map<KeyPath, string>)

  /** What an `AppRunner` captures at construction. */
  datatype Runner = Runner(defaultResultsDir: string, defaultDatabase: string, container: string)

  datatype InitError =
    | MissingKey(path: KeyPath)         // `KeyError` while reading a default
    | ContainerNotRunning(name: string) // `ValueError` from the `docker ps` check

  /** `AppRunner.__init__`: read the results directory, then the database
      name, then check that the container name occurs in the `docker ps`
      listing (a plain substring test). */
  function NewRunner(config: Config, psOutput: string, container: string): (r: Result<Runner, InitError>)
    ensures r.Success? <==>
      config.outputDir.Some? && config.database.Some? && HasSubstring(psOutput, container)
    ensures r.Success? ==>
      r.value.defaultResultsDir == config.outputDir.value &&
      r.value.defaultDatabase == config.database.value &&
      r.value.container == container
    ensures config.outputDir.None? ==> r == Failure(MissingKey(OutputDirKey))
    ensures config.outputDir.Some? && config.database.None? ==> r == Failure(MissingKey(DatabaseKey))
    ensures config.outputDir.Some? && config.database.Some? && !HasSubstring(psOutput, container) ==>
      r == Failure(ContainerNotRunning(container))
  {
    ContainsMeaning(psOutput, container);
    match (config.outputDir, config.database)
    case (None, _) => Failure(MissingKey(OutputDirKey))
    case (Some(_), None) => Failure(MissingKey(DatabaseKey))
    case (Some(dir), Some(db)) =>
      if Contains(psOutput, container) then Success(Runner(dir, db, container))
      else Failure(ContainerNotRunning(container))
  }

  /** The output directory `switch_database(name)` writes for a named database. */
  function ResultsDirFor(runner: Runner, name: string): string {
    runner.defaultResultsDir + "/" + name
  }

  /** `c` selects database `name` and its own output sub-directory. */
  predicate Selects(runner: Runner, c: Config, name: string) {
    c.database == Some(name) && c.outputDir == Some(ResultsDirFor(runner, name))
  }

  /** `c` selects the captured default database and results directory. */
  predicate IsRestored(runner: Runner, c: Config) {
    c.database == Some(runner.defaultDatabase) && c.outputDir == Some(runner.defaultResultsDir)
  }

  /** The document written by `switch_database(name)`; `None` selects the
      captured defaults. */
  function SwitchedConfig(runner: Runner, c: Config, name: Option<string>): (r: Config)
    ensures r.others == c.others
    ensures name.Some? ==> Selects(runner, r, name.value)
    ensures name.None? ==> IsRestored(runner, r)
  {
    match name
    case None => c.(database := Some(runner.defaultDatabase), outputDir := Some(runner.defaultResultsDir))
    case Some(n) => c.(database := Some(n), outputDir := Some(ResultsDirFor(runner, n)))
  }

  /** The intermediate document of `restore_config`: it switches to the
      default database BY NAME, so the output directory briefly becomes
      `<default_results_dir>/<default_database>`. */
  function RestoreFirstWrite(runner: Runner, c: Config): (r: Config)
    ensures Selects(runner, r, runner.defaultDatabase)
    ensures r.others == c.others
  {
    SwitchedConfig(runner, c, Some(runner.defaultDatabase))
  }

  /** The document `restore_config` leaves behind: the intermediate one with
      the output directory put back to the captured default. */
  function RestoredConfig(runner: Runner, c: Config): (r: Config)
    ensures IsRestored(runner, r)
    ensures r.others == c.others
  {
    RestoreFirstWrite(runner, c).(outputDir := Some(runner.defaultResultsDir))
  }

  /** A switch depends on the document only through the leaves it does not
      rewrite. */
  lemma SwitchIgnoresRewritten(runner: Runner, c: Config, d: Config, name: Option<string>)
    requires c.others == d.others
    ensures SwitchedConfig(runner, c, name) == SwitchedConfig(runner, d, name)
  {
  }

  /** Restoring ends where `switch_database(None)` would: the two-step
      restore through the default database's name and the overwrite of the
      output directory amount to selecting the captured defaults. */
  lemma RestoreIsSwitchToNone(runner: Runner, c: Config)
    ensures RestoredConfig(runner, c) == SwitchedConfig(runner, c, None)
  {
  }

  /** A named database's output directory is never the default results
      directory itself, so a switch and a restore write are told apart. */
  lemma ResultsDirForDiffers(runner: Runner, name: string)
    ensures ResultsDirFor(runner, name) != runner.defaultResultsDir
  {
  }
}

=== FILE: app_runner.dfy ===
/** The visiting half of `AppRunner`: `is_run_complete`, `run_process`,
    `switch_database`, and the body of `run`'s loop that switches to a test
    database, restarts, waits and polls until the run is over. */
module Visiting {
  import opened Common
  import opened Text
  import opened Discovery
  import opened AppConfig
  import opened Effects

  /** The log line the application prints when a measurement run is over. */
  const CompletionMarker: string := "Driveline is not rotating, batch skipped."

  /** The log test of `is_run_complete`. */
  predicate IsRunComplete(logs: string) {
    Contains(logs, CompletionMarker)
  }

  /** The check answers exactly whether the marker occurs somewhere in the
      fetched text. */
  lemma IsRunCompleteMeaning(logs: string)
    ensures IsRunComplete(logs) <==> exists i :: OccursAt(logs, CompletionMarker, i)
  {
    ContainsMeaning(logs, CompletionMarker);
  }

  /** Logs holding the marker line, whatever surrounds it, complete the run. */
  lemma MarkerCompletes(before: string, after: string)
    ensures IsRunComplete(before + CompletionMarker + after)
  {
    ContainsEmbedded(before, CompletionMarker, after);
  }

  /** The calls of `run_process` when the `k + 1`-th check is the first that
      finds the marker: each failed check fetches the logs again to print
      them and sleeps; the successful check is the last call. */
  function PollRounds(k: nat, since: int): seq<Event> {
    if k == 0 then [FetchLogs(since)]
    else [FetchLogs(since), FetchLogs(since), Sleep(since)] + PollRounds(k - 1, since)
  }

  /** `is_run_complete(check_interval_sec)`: one log fetch, searched for the
      marker. */
  function CheckRun(fault: Option<Fault>, st: State, interval: int): (r: Step<bool>)
    ensures r.st.config == st.config
    ensures st.trace <= r.st.trace <= st.trace + [FetchLogs(interval)]
    ensures |r.st.logs| <= |st.logs|
    ensures r.Done? ==> |st.logs| > 0 && r.value == IsRunComplete(st.logs[0]) && r.st.logs == st.logs[1..]
    ensures r.Done? ==> r.st.trace == st.trace + [FetchLogs(interval)]
    ensures r.Raised? ==> RaisedBy(fault, r.kind, interval)
  {
    var fetched := GetLogs(fault, st, interval);
    if !fetched.Done? then fetched.Fail() else Done(fetched.st, IsRunComplete(fetched.value))
  }

  /** The rest of a round whose check failed: fetch the logs again to print
      them, then sleep. */
  function WaitRound(fault: Option<Fault>, st: State, interval: int): (r: Step<()>)
    ensures r.st.config == st.config
    ensures st.trace <= r.st.trace <= st.trace + [FetchLogs(interval), Sleep(interval)]
    ensures |r.st.logs| <= |st.logs|
    ensures r.Done? ==> |st.logs| > 0 && r.st.logs == st.logs[1..]
    ensures r.Done? ==> r.st.trace == st.trace + [FetchLogs(interval), Sleep(interval)]
    ensures r.Raised? ==> RaisedBy(fault, r.kind, interval)
  {
    var shown := GetLogs(fault, st, interval);
    if !shown.Done? then shown.Fail() else Perform(fault, shown.st, Sleep(interval))
  }

  /** `run_process(check_interval_sec)`: check the logs until a check finds
      the marker. The value is the number of failed checks. */
  function RunProcess(fault: Option<Fault>, st: State, interval: int): (r: Step<nat>)
    ensures r.st.config == st.config
    ensures st.trace <= r.st.trace
    ensures |r.st.logs| <= |st.logs|
    ensures r.Raised? ==> RaisedBy(fault, r.kind, interval)
    decreases |st.logs|
  {
    var check := CheckRun(fault, st, interval);
    if !check.Done? then check.Fail()
    else if check.value then Done(check.st, 0)
    else
      var wait := WaitRound(fault, check.st, interval);
      if !wait.Done? then wait.Fail()
      else
        var rest := RunProcess(fault, wait.st, interval);
        if !rest.Done? then rest.Fail() else Done(rest.st, rest.value + 1)
  }

  /** The state after a round whose check failed and whose printing fetch
      and sleep went through. */
  function MissedRound(st: State, interval: int): State
    requires |st.logs| >= 2
  {
    State(st.config, st.trace + [FetchLogs(interval), FetchLogs(interval), Sleep(interval)], st.logs[2..])
  }

  /** One round of `run_process`: a completed poll either stopped at the
      first check, which saw the marker, or missed and went on from the state
      after the missed round. */
  lemma RunProcessUnroll(fault: Option<Fault>, st: State, interval: int)
    ensures var r := RunProcess(fault, st, interval);
      r.Done? ==> |st.logs| >= 1 && (r.value == 0 <==> IsRunComplete(st.logs[0]))
    ensures var r := RunProcess(fault, st, interval);
      r.Done? && r.value == 0 ==> r.st == State(st.config, st.trace + [FetchLogs(interval)], st.logs[1..])
    ensures var r := RunProcess(fault, st, interval);
      r.Done? && r.value > 0 ==>
        |st.logs| >= 2 && RunProcess(fault, MissedRound(st, interval), interval) == Done(r.st, r.value - 1)
  {
    var check := CheckRun(fault, st, interval);
    if check.Done? && !check.value {
      var wait := WaitRound(fault, check.st, interval);
      if wait.Done? {
        assert wait.st == MissedRound(st, interval);
      }
    }
  }

  /** A poll that did not complete either stopped within its first round or
      ended where the rest of the poll, after a missed round, ended. */
  lemma RunProcessUnrollStopped(fault: Option<Fault>, st: State, interval: int)
    ensures var r := RunProcess(fault, st, interval);
      !r.Done? ==>
        r.st.trace <= st.trace + [FetchLogs(interval), FetchLogs(interval), Sleep(interval)] ||
        (|st.logs| >= 2 && r.st == RunProcess(fault, MissedRound(st, interval), interval).st)
  {
    var check := CheckRun(fault, st, interval);
    if check.Done? && !check.value {
      var wait := WaitRound(fault, check.st, interval);
      if wait.Done? {
        assert wait.st == MissedRound(st, interval);
      }
    }
  }

  /** A completed poll consumed exactly the snapshots of its rounds: two per
      failed round and one for the successful check. */
  lemma {:induction false} RunProcessConsumes(fault: Option<Fault>, st: State, interval: int)
    ensures var r := RunProcess(fault, st, interval);
      r.Done? ==> 2 * r.value + 1 <= |st.logs| && r.st.logs == st.logs[2 * r.value + 1..]
    decreases |st.logs|
  {
    var r := RunProcess(fault, st, interval);
    RunProcessUnroll(fault, st, interval);
    if r.Done? && r.value > 0 {
      RunProcessConsumes(fault, MissedRound(st, interval), interval);
    }
  }

  /** `run_process` returns only after a check that saw the completion
      marker. The checked snapshots are the even-indexed ones; the
      odd-indexed ones were only printed. */
  lemma {:induction false} RunProcessStopsAtMarker(fault: Option<Fault>, st: State, interval: int)
    ensures var r := RunProcess(fault, st, interval);
      r.Done? ==> 2 * r.value < |st.logs| && IsRunComplete(st.logs[2 * r.value])
    decreases |st.logs|
  {
    var r := RunProcess(fault, st, interval);
    RunProcessUnroll(fault, st, interval);
    if r.Done? && r.value > 0 {
      var next := MissedRound(st, interval);
      RunProcessStopsAtMarker(fault, next, interval);
      assert st.logs[2 * r.value] == next.logs[2 * (r.value - 1)];
    }
  }

  /** Every check before the last one missed the completion marker. */
  lemma {:induction false} RunProcessMissesBefore(fault: Option<Fault>, st: State, interval: int)
    ensures var r := RunProcess(fault, st, interval);
      r.Done? ==> 2 * r.value < |st.logs| && forall j :: 0 <= j < r.value ==> !IsRunComplete(st.logs[2 * j])
    decreases |st.logs|
  {
    var r := RunProcess(fault, st, interval);
    RunProcessUnroll(fault, st, interval);
    RunProcessConsumes(fault, st, interval);
    if r.Done? && r.value > 0 {
      var next := MissedRound(st, interval);
      RunProcessMissesBefore(fault, next, interval);
      forall j | 0 < j < r.value
        ensures !IsRunComplete(st.logs[2 * j])
      {
        assert st.logs[2 * j] == next.logs[2 * (j - 1)];
      }
    }
  }

  /** The calls of a completed poll are its failed rounds followed by the
      successful check, all with the same interval. */
  lemma {:induction false} RunProcessCalls(fault: Option<Fault>, st: State, interval: int)
    ensures var r := RunProcess(fault, st, interval);
      r.Done? ==> r.st.trace == st.trace + PollRounds(r.value, interval)
    decreases |st.logs|
  {
    var r := RunProcess(fault, st, interval);
    RunProcessUnroll(fault, st, interval);
    if r.Done? {
      var k := r.value;
      if k == 0 {
        assert r.st.trace == st.trace + PollRounds(0, interval);
      } else {
        var next := MissedRound(st, interval);
        RunProcessCalls(fault, next, interval);
        var round := [FetchLogs(interval), FetchLogs(interval), Sleep(interval)];
        assert RunProcess(fault, next, interval) == Done(r.st, k - 1);
        assert PollRounds(k, interval) == round + PollRounds(k - 1, interval);
        ConcatAssoc(st.trace, round, PollRounds(k - 1, interval));
      }
    }
  }

  /** `switch_database(name)`: write the switched document, then restart the
      container. */
  function SwitchDatabase(fault: Option<Fault>, runner: Runner, st: State, name: Option<string>): (r: Step<()>)
    ensures r.Raised? || r.Done?
    ensures r.st.trace <= st.trace + [WriteConfig(SwitchedConfig(runner, st.config, name)), Restart]
    ensures st.trace <= r.st.trace
    ensures r.st.logs == st.logs
    ensures r.st.config.others == st.config.others
    ensures r.Done? ==> r.st.config == SwitchedConfig(runner, st.config, name)
    ensures r.Done? ==> r.st.trace == st.trace + [WriteConfig(r.st.config), Restart]
    ensures r.Raised? ==> fault.Some? && fault.value.kind == r.kind
  {
    var write := Perform(fault, st, WriteConfig(SwitchedConfig(runner, st.config, name)));
    if !write.Done? then write.Fail()
    else Perform(fault, write.st, Restart)
  }

  /** The calls of one fault-free visit of `db` whose polling saw `k` failed
      checks, starting from config document `c`. */
  function VisitEvents(runner: Runner, c: Config, db: string, k: nat, interval: int): seq<Event> {
    [WriteConfig(SwitchedConfig(runner, c, Some(db))), Restart, Sleep(interval)] + PollRounds(k, interval)
  }

  /** The body of the `for db in test_databases` loop: switch, warm up,
      poll. */
  function Visit(fault: Option<Fault>, runner: Runner, st: State, db: string, interval: int): (r: Step<nat>)
    ensures st.trace <= r.st.trace
    ensures |r.st.logs| <= |st.logs|
    ensures r.st.config.others == st.config.others
    ensures r.Done? ==> r.st.config == SwitchedConfig(runner, st.config, Some(db))
    ensures r.Raised? ==> RaisedBy(fault, r.kind, interval)
  {
    var switched := SwitchDatabase(fault, runner, st, Some(db));
    if !switched.Done? then switched.Fail()
    else
      var warmup := Perform(fault, switched.st, Sleep(interval));
      if !warmup.Done? then warmup.Fail()
      else RunProcess(fault, warmup.st, interval)
  }

  /** A completed visit made the switch, the warm-up sleep and the polling
      rounds, in that order. */
  lemma VisitCalls(fault: Option<Fault>, runner: Runner, st: State, db: string, interval: int)
    ensures var r := Visit(fault, runner, st, db, interval);
      r.Done? ==> r.st.trace == st.trace + VisitEvents(runner, st.config, db, r.value, interval)
  {
    var switched := SwitchDatabase(fault, runner, st, Some(db));
    if switched.Done? {
      var warmup := Perform(fault, switched.st, Sleep(interval));
      if warmup.Done? {
        RunProcessCalls(fault, warmup.st, interval);
        var r := RunProcess(fault, warmup.st, interval);
        if r.Done? {
          var head := [WriteConfig(SwitchedConfig(runner, st.config, Some(db))), Restart, Sleep(interval)];
          assert Visit(fault, runner, st, db, interval) == r;
          assert warmup.st.trace == st.trace + head;
          ConcatAssoc(st.trace, head, PollRounds(r.value, interval));
        }
      }
    }
  }

  /** `e` is not a config write, or one that selects one of `dbs` and that
      database's own output sub-directory. */
  ghost predicate SelectsOneOf(runner: Runner, e: Event, dbs: seq<string>) {
    e.WriteConfig? ==>
      e.config.database.Some? && e.config.database.value in dbs && Selects(runner, e.config, e.config.database.value)
  }

  /** Every config write among `events` selects one of `dbs`. */
  ghost predicate WritesSelect(runner: Runner, events: seq<Event>, dbs: seq<string>) {
    forall e :: e in events ==> SelectsOneOf(runner, e, dbs)
  }

  /** Polling never writes the config: no call a poll adds, completed or
      not, is a config write. */
  lemma {:induction false} RunProcessAddsNoWrite(fault: Option<Fault>, st: State, interval: int)
    ensures var r := RunProcess(fault, st, interval);
      forall i :: |st.trace| <= i < |r.st.trace| ==> !r.st.trace[i].WriteConfig?
    decreases |st.logs|
  {
    var r := RunProcess(fault, st, interval);
    var planned := [FetchLogs(interval), FetchLogs(interval), Sleep(interval)];
    RunProcessUnrollStopped(fault, st, interval);
    RunProcessUnroll(fault, st, interval);
    if r.Done? && r.value == 0 {
      assert r.st.trace == st.trace + [FetchLogs(interval)];
    } else if r.Done? || !(r.st.trace <= st.trace + planned) {
      var next := MissedRound(st, interval);
      RunProcessAddsNoWrite(fault, next, interval);
      assert next.trace <= r.st.trace;
      forall i | |st.trace| <= i < |next.trace|
        ensures !r.st.trace[i].WriteConfig?
      {
        assert r.st.trace[i] == next.trace[i] == planned[i - |st.trace|];
      }
    } else {
      forall i | |st.trace| <= i < |r.st.trace|
        ensures !r.st.trace[i].WriteConfig?
      {
        assert r.st.trace[i] == (st.trace + planned)[i] == planned[i - |st.trace|];
      }
    }
  }

  /** Whatever holds of every config write before a poll holds after it. */
  lemma RunProcessWritesNothing(fault: Option<Fault>, st: State, interval: int, runner: Runner, dbs: seq<string>)
    requires WritesSelect(runner, st.trace, dbs)
    ensures WritesSelect(runner, RunProcess(fault, st, interval).st.trace, dbs)
  {
    var r := RunProcess(fault, st, interval);
    RunProcessAddsNoWrite(fault, st, interval);
    forall e | e in r.st.trace
      ensures SelectsOneOf(runner, e, dbs)
    {
      var i :| 0 <= i < |r.st.trace| && r.st.trace[i] == e;
      if i < |st.trace| {
        assert e == st.trace[i];
      }
    }
  }

  /** The only config write of a visit, completed or not, selects the visited
      database. */
  lemma VisitWrites(fault: Option<Fault>, runner: Runner, st: State, db: string, dbs: seq<string>, interval: int)
    requires db in dbs
    requires WritesSelect(runner, st.trace, dbs)
    ensures WritesSelect(runner, Visit(fault, runner, st, db, interval).st.trace, dbs)
  {
    var r := Visit(fault, runner, st, db, interval);
    var switched := SwitchDatabase(fault, runner, st, Some(db));
    var c := SwitchedConfig(runner, st.config, Some(db));
    var head := st.trace + [WriteConfig(c), Restart];
    assert SelectsOneOf(runner, WriteConfig(c), dbs);
    assert WritesSelect(runner, head, dbs);
    if switched.Done? {
      var warmup := Perform(fault, switched.st, Sleep(interval));
      if warmup.Done? {
        assert WritesSelect(runner, warmup.st.trace, dbs);
        RunProcessWritesNothing(fault, warmup.st, interval, runner, dbs);
      }
    } else {
      PrefixMembers(r.st.trace, head);
    }
  }

  /** The calls of a fault-free loop over `dbs`, the `i`-th visit seeing
      `polls[i]` failed checks. Every switch starts from `c`'s other leaves,
      since a switch overwrites everything the previous one wrote. */
  function Visits(runner: Runner, c: Config, dbs: seq<string>, polls: seq<nat>, interval: int): seq<Event>
    requires |polls| == |dbs|
  {
    if dbs == [] then []
    else VisitEvents(runner, c, dbs[0], polls[0], interval) + Visits(runner, c, dbs[1..], polls[1..], interval)
  }

  /** Polling never restarts the container. */
  lemma {:induction false} PollRoundsRestartFree(k: nat, since: int)
    ensures multiset(PollRounds(k, since))[Restart] == 0
  {
    if k > 0 {
      PollRoundsRestartFree(k - 1, since);
      assert PollRounds(k, since) == [FetchLogs(since), FetchLogs(since), Sleep(since)] + PollRounds(k - 1, since);
    }
  }

  /** A fault-free loop restarts the container exactly once per database:
      the restart of its switch. */
  lemma {:induction false} VisitsRestartOnceEach(runner: Runner, c: Config, dbs: seq<string>, polls: seq<nat>, interval: int)
    requires |polls| == |dbs|
    ensures multiset(Visits(runner, c, dbs, polls, interval))[Restart] == |dbs|
    decreases |dbs|
  {
    if dbs != [] {
      var head := [WriteConfig(SwitchedConfig(runner, c, Some(dbs[0]))), Restart, Sleep(interval)];
      PollRoundsRestartFree(polls[0], interval);
      VisitsRestartOnceEach(runner, c, dbs[1..], polls[1..], interval);
      assert multiset(head)[Restart] == 1;
      assert VisitEvents(runner, c, dbs[0], polls[0], interval) == head + PollRounds(polls[0], interval);
    }
  }

  /** `Visits` reads the starting document only outside the rewritten leaves. */
  lemma {:induction false} VisitsIgnoreRewritten(runner: Runner, c: Config, d: Config, dbs: seq<string>, polls: seq<nat>, interval: int)
    requires |polls| == |dbs|
    requires c.others == d.others
    ensures Visits(runner, c, dbs, polls, interval) == Visits(runner, d, dbs, polls, interval)
    decreases |dbs|
  {
    if dbs != [] {
      SwitchIgnoresRewritten(runner, c, d, Some(dbs[0]));
      VisitsIgnoreRewritten(runner, c, d, dbs[1..], polls[1..], interval);
    }
  }

  /** The `for db in test_databases` loop; the value lists the failed checks
      of each visit. An exception ends the loop: the remaining databases are
      not visited. */
  function VisitAll(fault: Option<Fault>, runner: Runner, st: State, dbs: seq<string>, interval: int): (r: Step<seq<nat>>)
    ensures st.trace <= r.st.trace
    ensures |r.st.logs| <= |st.logs|
    ensures r.st.config.others == st.config.others
    ensures r.Raised? ==> RaisedBy(fault, r.kind, interval)
    decreases |dbs|
  {
    if dbs == [] then Done(st, [])
    else
      var first := Visit(fault, runner, st, dbs[0], interval);
      if !first.Done? then first.Fail()
      else
        var rest := VisitAll(fault, runner, first.st, dbs[1..], interval);
        if !rest.Done? then rest.Fail() else Done(rest.st, [first.value] + rest.value)
  }

  /** A completed loop visited every database once, in the order given. */
  lemma {:induction false} VisitAllCalls(fault: Option<Fault>, runner: Runner, st: State, dbs: seq<string>, interval: int)
    ensures var r := VisitAll(fault, runner, st, dbs, interval);
      r.Done? ==> |r.value| == |dbs| && r.st.trace == st.trace + Visits(runner, st.config, dbs, r.value, interval)
    decreases |dbs|
  {
    var r := VisitAll(fault, runner, st, dbs, interval);
    if dbs != [] && r.Done? {
      var first := Visit(fault, runner, st, dbs[0], interval);
      var rest := VisitAll(fault, runner, first.st, dbs[1..], interval);
      assert first.Done? && rest.Done? && r == Done(rest.st, [first.value] + rest.value);
      VisitCalls(fault, runner, st, dbs[0], interval);
      VisitAllCalls(fault, runner, first.st, dbs[1..], interval);
      VisitsIgnoreRewritten(runner, first.st.config, st.config, dbs[1..], rest.value, interval);
      var head := VisitEvents(runner, st.config, dbs[0], first.value, interval);
      var tail := Visits(runner, st.config, dbs[1..], rest.value, interval);
      assert r.value[1..] == rest.value;
      assert Visits(runner, st.config, dbs, r.value, interval) == head + tail;
      ConcatAssoc(st.trace, head, tail);
    }
  }

  /** Every config write of the loop, completed or not, selects one of the
      databases it was given. */
  lemma {:induction false} VisitAllWrites(fault: Option<Fault>, runner: Runner, st: State, dbs: seq<string>, all: seq<string>, interval: int)
    requires forall db :: db in dbs ==> db in all
    requires WritesSelect(runner, st.trace, all)
    ensures WritesSelect(runner, VisitAll(fault, runner, st, dbs, interval).st.trace, all)
    decreases |dbs|
  {
    if dbs != [] {
      var first := Visit(fault, runner, st, dbs[0], interval);
      VisitWrites(fault, runner, st, dbs[0], all, interval);
      if first.Done? {
        VisitAllWrites(fault, runner, first.st, dbs[1..], all, interval);
      }
    }
  }
}

=== FILE: common.dfy ===
/** Failure-carrying values shared by the model: an optional value and a
    success-or-error result, standing in for Python's `None` and raised
    exceptions. */
module Common {

  datatype Option<+T> = None | Some(value: T)

  datatype Result<+R, +E> = Success(value: R) | Failure(error: E)
}

=== FILE: discovery.dfy ===
/** Discovery of the test databases: the names from `SHOW DATABASES` that
    begin with a prefix, in listing order (`AppRunner.get_test_databases`). */
module Discovery {
  import opened Common
  import opened Text

  /** Default prefix of `get_test_databases`. */
  const TestPrefix: string := "test"

  datatype DiscoveryError = NoTestDatabases

  /** The list comprehension `[n for n in names if n.startswith(prefix)]`. */
  function Select(names: seq<string>, prefix: string): (r: seq<string>)
    ensures |r| <= |names|
    ensures forall x :: x in r <==> x in names && StartsWith(x, prefix)
    ensures forall x :: multiset(r)[x] == if StartsWith(x, prefix) then multiset(names)[x] else 0
  {
    if names == [] then []
    else
      var rest := Select(names[1..], prefix);
      assert names == [names[0]] + names[1..];
      assert multiset(names) == multiset{names[0]} + multiset(names[1..]);
      if StartsWith(names[0], prefix) then
        assert multiset([names[0]] + rest) == multiset{names[0]} + multiset(rest);
        [names[0]] + rest
      else rest
  }

  /** Selection distributes over concatenation: the order of the listing is
      kept, and each name is judged on its own. */
  lemma {:induction false} SelectAppend(a: seq<string>, b: seq<string>, prefix: string)
    ensures Select(a + b, prefix) == Select(a, prefix) + Select(b, prefix)
    decreases |a|
  {
    if a == [] {
      assert a + b == b;
    } else {
      assert (a + b)[1..] == a[1..] + b;
      SelectAppend(a[1..], b, prefix);
    }
  }

  /** A listing whose names all carry the prefix is kept whole. */
  lemma {:induction false} SelectKeepsAll(names: seq<string>, prefix: string)
    requires forall i :: 0 <= i < |names| ==> StartsWith(names[i], prefix)
    ensures Select(names, prefix) == names
    decreases |names|
  {
    if names != [] {
      SelectKeepsAll(names[1..], prefix);
    }
  }

  /** Selecting twice with the same prefix changes nothing. */
  lemma {:induction false} SelectIdempotent(names: seq<string>, prefix: string)
    ensures Select(Select(names, prefix), prefix) == Select(names, prefix)
  {
    var r := Select(names, prefix);
    forall i | 0 <= i < |r|
      ensures StartsWith(r[i], prefix)
    {
      assert r[i] in r;
    }
    SelectKeepsAll(r, prefix);
  }

  /** `get_test_databases`: the selected names, or `ValueError` when there
      are none. */
  function GetTestDatabases(listing: seq<string>, prefix: string): (r: Result<seq<string>, DiscoveryError>)
    ensures r.Failure? <==> forall x :: x in listing ==> !StartsWith(x, prefix)
    ensures r.Success? ==> r.value != [] && r.value == Select(listing, prefix)
  {
    var found := Select(listing, prefix);
    if found == [] then Failure(NoTestDatabases) else Success(found)
  }
}

=== FILE: effects.dfy ===
/** The runner's outside world, reduced to a trace of calls. Every call
    into Docker, the JSON file, the store or the clock becomes an `Event`;
    a scripted `Fault` makes one chosen call raise instead of completing. */
module Effects {
  import opened Common
  import opened AppConfig

  datatype Event =
    | ListDatabases                                        // `SHOW DATABASES`
    | WriteConfig(config: Config)                          // `json.dump` of the app config
    | Restart                                              // `docker restart <container>`
    | Sleep(seconds: int)                                  // `time.sleep`
    | FetchLogs(since: int)                                // `docker logs --since <n>s`
    | CleanDatabase(database: string, exclude: seq<string>) // store: drop all but `exclude`
    | AddFirstTimestamp(database: string, measurement: string)

  /** Python's exception hierarchy as far as `except Exception` sees it:
      `Exception` is caught there; `BaseException` (a `KeyboardInterrupt`,
      say) passes through. */
  datatype ExcClass = Exception | BaseException

  /** The call with trace index `at` raises an exception of class `kind`. */
  datatype Fault = Fault(at: nat, kind: ExcClass)

  /** The runner's view of the world between two calls: the config file's
      content, the calls made so far, and the `docker logs` outputs not yet
      fetched. */
  datatype State = State(config: Config, trace: seq<Event>, logs: seq<string>)

  /** The result of a stretch of the run: it completed with a value, an
      exception left it, or the log script ran out (the source would still be
      waiting for the container). */
  datatype Step<+T> = Done(st: State, value: T) | Raised(st: State, kind: ExcClass) | Exhausted(st: State) {
    /** The same failure, at another value type. */
    function Fail<U>(): (r: Step<U>)
      requires !Done?
      ensures r.st == st && !r.Done?
      ensures Raised? ==> r == Raised(st, kind)
      ensures Exhausted? ==> r.Exhausted?
    {
      match this
      case Raised(s, k) => Raised(s, k)
      case Exhausted(s) => Exhausted(s)
    }
  }

  /** The longest sleep CPython's `time.sleep` accepts, in whole seconds: the
      duration is converted to a signed 64-bit count of nanoseconds, and
      `(2^63 - 1) / 10^9` rounds down to this. */
  const MaxSleepSeconds: int := 9223372036

  /** `time.sleep(n)` raises instead of sleeping: `OverflowError` when the
      nanosecond count of `n` leaves the signed 64-bit range (`n` beyond
      plus or minus `MaxSleepSeconds`), otherwise `ValueError` for a negative
      `n` (from -9223372036 to -1). */
  predicate SleepRejects(n: int) {
    n < 0 || n > MaxSleepSeconds
  }

  /** An exception of class `kind` can have been raised by a polling or
      visiting stretch run with check interval `interval`: either the
      scripted fault, or `time.sleep` refusing the interval (`SleepRejects`). */
  predicate RaisedBy(fault: Option<Fault>, kind: ExcClass, interval: int) {
    (fault.Some? && fault.value.kind == kind) || (kind == Exception && SleepRejects(interval))
  }

  /** One call to the outside world. The scripted fault takes precedence;
      `time.sleep` rejects a duration it cannot sleep (`SleepRejects`); otherwise
      the call is recorded, and a config write replaces the file's content. */
  function Perform(fault: Option<Fault>, st: State, e: Event): (r: Step<()>)
    ensures r.Raised? || r.Done?
    ensures r.Done? <==> !(fault.Some? && fault.value.at == |st.trace|) && !(e.Sleep? && SleepRejects(e.seconds))
    ensures r.Raised? ==> r.st == st
    ensures r.st.trace <= st.trace + [e]
    ensures r.Raised? && fault.Some? && fault.value.at == |st.trace| ==> r.kind == fault.value.kind
    ensures r.Raised? ==> (fault.Some? && fault.value.kind == r.kind) || (r.kind == Exception && e.Sleep? && SleepRejects(e.seconds))
    ensures r.Done? ==> r.st.trace == st.trace + [e] && r.st.logs == st.logs
    ensures r.Done? ==> r.st.config == if e.WriteConfig? then e.config else st.config
  {
    if fault.Some? && fault.value.at == |st.trace| then Raised(st, fault.value.kind)
    else if e.Sleep? && SleepRejects(e.seconds) then Raised(st, Exception)
    else Done(State(if e.WriteConfig? then e.config else st.config, st.trace + [e], st.logs), ())
  }

  /** `get_logs(since)`: one `docker logs` call, answered by the next
      scripted snapshot. */
  function GetLogs(fault: Option<Fault>, st: State, since: int): (r: Step<string>)
    ensures r.st.config == st.config
    ensures st.trace <= r.st.trace <= st.trace + [FetchLogs(since)]
    ensures r.Done? ==> |st.logs| > 0 && r.value == st.logs[0] && r.st.logs == st.logs[1..]
    ensures r.Done? ==> r.st.trace == st.trace + [FetchLogs(since)]
    ensures r.Exhausted? ==> st.logs == []
    ensures !r.Done? ==> r.st.logs == st.logs
    ensures r.Raised? ==> fault.Some? && fault.value.kind == r.kind
  {
    var a := Perform(fault, st, FetchLogs(since));
    if !a.Done? then a.Fail()
    else if |a.st.logs| == 0 then Exhausted(a.st)
    else Done(a.st.(logs := a.st.logs[1..]), a.st.logs[0])
  }

  /** Everything in a prefix is in the whole. */
  lemma PrefixMembers<T>(a: seq<T>, b: seq<T>)
    requires a <= b
    ensures forall x :: x in a ==> x in b
  {
    forall x | x in a ensures x in b {
      var i :| 0 <= i < |a| && a[i] == x;
      assert b[i] == x;
    }
  }

  /** Concatenation is associative. */
  lemma ConcatAssoc<T>(a: seq<T>, b: seq<T>, c: seq<T>)
    ensures (a + b) + c == a + (b + c)
  {
  }

  /** `r` is what the faulty run produced where the fault-free run produced
      `r0`, for a fault of class `kind` at call `k`: when the fault-free run
      got past call `k`, the faulty one raised there with the first `k` calls
      made; otherwise the two are the same, except that a call at index `k`
      that failed anyway now fails with the scripted class. */
  ghost predicate Truncates<T>(r: Step<T>, r0: Step<T>, k: nat, kind: ExcClass) {
    if |r0.st.trace| > k then r.Raised? && r.kind == kind && r.st.trace == r0.st.trace[..k]
    else r == r0 || (|r0.st.trace| == k && r0.Raised? && r == Raised(r0.st, kind))
  }

  /** A fault at call `k` cuts a single call exactly where `Truncates` says. */
  lemma PerformTruncates(st: State, e: Event, k: nat, kind: ExcClass)
    requires |st.trace| <= k
    ensures Truncates(Perform(Some(Fault(k, kind)), st, e), Perform(None, st, e), k, kind)
  {
  }

  /** Sequencing preserves truncation: `a`/`a0` is the first stretch under the
      fault and without it, `b`/`b0` the rest, started from `a0`'s state. */
  lemma ThenTruncates<T, U>(a: Step<T>, a0: Step<T>, b: Step<U>, b0: Step<U>, k: nat, kind: ExcClass)
    requires Truncates(a, a0, k, kind)
    requires a0.Done? ==> a0.st.trace <= b0.st.trace
    requires a0.Done? && |a0.st.trace| <= k ==> Truncates(b, b0, k, kind)
    ensures Truncates(if a.Done? then b else a.Fail<U>(), if a0.Done? then b0 else a0.Fail<U>(), k, kind)
  {
    if a0.Done? && |a0.st.trace| > k {
      assert b0.st.trace[..k] == a0.st.trace[..k];
    }
  }

  /** A fault at call `k` cuts a log fetch exactly where `Truncates` says. */
  lemma GetLogsTruncates(st: State, since: int, k: nat, kind: ExcClass)
    requires |st.trace| <= k
    ensures Truncates(GetLogs(Some(Fault(k, kind)), st, since), GetLogs(None, st, since), k, kind)
  {
    PerformTruncates(st, FetchLogs(since), k, kind);
  }
}

=== FILE: faults.dfy ===
/** What one exception does to a run: a fault at call `k` cuts the
    fault-free trace at `k`. Each stretch of the runner is shown to satisfy
    `Truncates`, from the single call up to the whole `try` block; `run`
    then appends the same `finally` calls either way. */
module FaultCut {
  import opened Common
  import opened Discovery
  import opened AppConfig
  import opened Effects
  import opened Visiting
  import opened Orchestrator

  /** A completed stretch, its value mapped. */
  lemma MapTruncates<T, U>(a: Step<T>, a0: Step<T>, b: Step<U>, b0: Step<U>, k: nat, kind: ExcClass)
    requires Truncates(a, a0, k, kind)
    requires a.Done? ==> b.Done? && b.st == a.st
    requires a0.Done? ==> b0.Done? && b0.st == a0.st
    requires a.Done? && a0.Done? && a == a0 ==> b == b0
    ensures Truncates(if a.Done? then b else a.Fail<U>(), if a0.Done? then b0 else a0.Fail<U>(), k, kind)
  {
    ThenTruncates(a, a0, b, b0, k, kind);
  }

  lemma CheckRunTruncates(st: State, interval: int, k: nat, kind: ExcClass)
    requires |st.trace| <= k
    ensures Truncates(CheckRun(Some(Fault(k, kind)), st, interval), CheckRun(None, st, interval), k, kind)
  {
    var a := GetLogs(Some(Fault(k, kind)), st, interval);
    var a0 := GetLogs(None, st, interval);
    GetLogsTruncates(st, interval, k, kind);
    var b: Step<bool> := if a.Done? then Done(a.st, IsRunComplete(a.value)) else Exhausted(a.st);
    var b0: Step<bool> := if a0.Done? then Done(a0.st, IsRunComplete(a0.value)) else Exhausted(a0.st);
    MapTruncates(a, a0, b, b0, k, kind);
  }

  lemma WaitRoundTruncates(st: State, interval: int, k: nat, kind: ExcClass)
    requires |st.trace| <= k
    ensures Truncates(WaitRound(Some(Fault(k, kind)), st, interval), WaitRound(None, st, interval), k, kind)
  {
    var f := Some(Fault(k, kind));
    var a := GetLogs(f, st, interval);
    var a0 := GetLogs(None, st, interval);
    GetLogsTruncates(st, interval, k, kind);
    if a0.Done? && |a0.st.trace| <= k {
      PerformTruncates(a0.st, Sleep(interval), k, kind);
    }
    ThenTruncates(a, a0, Perform(f, a.st, Sleep(interval)), Perform(None, a0.st, Sleep(interval)), k, kind);
  }

  /** The part of `run_process` after a failed check and a completed wait. */
  function AfterWait(fault: Option<Fault>, st: State, interval: int): Step<nat> {
    var rest := RunProcess(fault, st, interval);
    if !rest.Done? then rest.Fail() else Done(rest.st, rest.value + 1)
  }

  /** The part of `run_process` after a completed check. */
  function AfterCheck(fault: Option<Fault>, st: State, found: bool, interval: int): Step<nat> {
    if found then Done(st, 0)
    else
      var wait := WaitRound(fault, st, interval);
      if !wait.Done? then wait.Fail() else AfterWait(fault, wait.st, interval)
  }

  lemma RunProcessSplits(fault: Option<Fault>, st: State, interval: int)
    ensures var check := CheckRun(fault, st, interval);
      RunProcess(fault, st, interval) ==
        if check.Done? then AfterCheck(fault, check.st, check.value, interval) else check.Fail()
  {
  }

  lemma {:induction false} RunProcessTruncates(st: State, interval: int, k: nat, kind: ExcClass)
    requires |st.trace| <= k
    ensures Truncates(RunProcess(Some(Fault(k, kind)), st, interval), RunProcess(None, st, interval), k, kind)
    decreases |st.logs|, 1
  {
    var f := Some(Fault(k, kind));
    var c := CheckRun(f, st, interval);
    var c0 := CheckRun(None, st, interval);
    CheckRunTruncates(st, interval, k, kind);
    var b := if c.Done? then AfterCheck(f, c.st, c.value, interval) else Exhausted(c.st);
    var b0 := if c0.Done? then AfterCheck(None, c0.st, c0.value, interval) else Exhausted(c0.st);
    if c0.Done? && |c0.st.trace| <= k {
      assert c == c0;
      AfterCheckTruncates(c0.st, c0.value, interval, k, kind);
      assert Truncates(b, b0, k, kind);
    }
    ThenTruncates(c, c0, b, b0, k, kind);
    RunProcessSplits(f, st, interval);
    RunProcessSplits(None, st, interval);
  }

  lemma {:induction false} AfterCheckTruncates(st: State, found: bool, interval: int, k: nat, kind: ExcClass)
    requires |st.trace| <= k
    ensures Truncates(AfterCheck(Some(Fault(k, kind)), st, found, interval), AfterCheck(None, st, found, interval), k, kind)
    decreases |st.logs|, 0
  {
    if !found {
      var f := Some(Fault(k, kind));
      var w := WaitRound(f, st, interval);
      var w0 := WaitRound(None, st, interval);
      WaitRoundTruncates(st, interval, k, kind);
      var d := if w.Done? then AfterWait(f, w.st, interval) else Exhausted(w.st);
      var d0 := if w0.Done? then AfterWait(None, w0.st, interval) else Exhausted(w0.st);
      if w0.Done? && |w0.st.trace| <= k {
        assert w == w0;
        var rr := RunProcess(f, w0.st, interval);
        var rr0 := RunProcess(None, w0.st, interval);
        RunProcessTruncates(w0.st, interval, k, kind);
        var e: Step<nat> := if rr.Done? then Done(rr.st, rr.value + 1) else Exhausted(rr.st);
        var e0: Step<nat> := if rr0.Done? then Done(rr0.st, rr0.value + 1) else Exhausted(rr0.st);
        MapTruncates(rr, rr0, e, e0, k, kind);
      }
      ThenTruncates(w, w0, d, d0, k, kind);
    }
  }

  lemma SwitchTruncates(runner: Runner, st: State, name: Option<string>, k: nat, kind: ExcClass)
    requires |st.trace| <= k
    ensures Truncates(SwitchDatabase(Some(Fault(k, kind)), runner, st, name), SwitchDatabase(None, runner, st, name), k, kind)
  {
    var f := Some(Fault(k, kind));
    var e := WriteConfig(SwitchedConfig(runner, st.config, name));
    var a := Perform(f, st, e);
    var a0 := Perform(None, st, e);
    PerformTruncates(st, e, k, kind);
    if a0.Done? && |a0.st.trace| <= k {
      PerformTruncates(a0.st, Restart, k, kind);
    }
    ThenTruncates(a, a0, Perform(f, a.st, Restart), Perform(None, a0.st, Restart), k, kind);
  }

  /** The part of a visit after the switch: warm up, then poll. */
  function AfterSwitch(fault: Option<Fault>, st: State, interval: int): Step<nat> {
    var warmup := Perform(fault, st, Sleep(interval));
    if !warmup.Done? then warmup.Fail() else RunProcess(fault, warmup.st, interval)
  }

  lemma AfterSwitchTruncates(st: State, interval: int, k: nat, kind: ExcClass)
    requires |st.trace| <= k
    ensures Truncates(AfterSwitch(Some(Fault(k, kind)), st, interval), AfterSwitch(None, st, interval), k, kind)
  {
    var f := Some(Fault(k, kind));
    var a := Perform(f, st, Sleep(interval));
    var a0 := Perform(None, st, Sleep(interval));
    PerformTruncates(st, Sleep(interval), k, kind);
    if a0.Done? && |a0.st.trace| <= k {
      RunProcessTruncates(a0.st, interval, k, kind);
    }
    ThenTruncates(a, a0, RunProcess(f, a.st, interval), RunProcess(None, a0.st, interval), k, kind);
  }

  lemma VisitTruncates(runner: Runner, st: State, db: string, interval: int, k: nat, kind: ExcClass)
    requires |st.trace| <= k
    ensures Truncates(Visit(Some(Fault(k, kind)), runner, st, db, interval), Visit(None, runner, st, db, interval), k, kind)
  {
    var f := Some(Fault(k, kind));
    var a := SwitchDatabase(f, runner, st, Some(db));
    var a0 := SwitchDatabase(None, runner, st, Some(db));
    SwitchTruncates(runner, st, Some(db), k, kind);
    if a0.Done? && |a0.st.trace| <= k {
      AfterSwitchTruncates(a0.st, interval, k, kind);
    }
    ThenTruncates(a, a0, AfterSwitch(f, a.st, interval), AfterSwitch(None, a0.st, interval), k, kind);
  }

  /** The part of the loop after a completed visit with `polls` failed checks. */
  function AfterVisit(fault: Option<Fault>, runner: Runner, st: State, dbs: seq<string>, polls: nat, interval: int): Step<seq<nat>> {
    var rest := VisitAll(fault, runner, st, dbs, interval);
    if !rest.Done? then rest.Fail() else Done(rest.st, [polls] + rest.value)
  }

  lemma {:induction false} VisitAllTruncates(runner: Runner, st: State, dbs: seq<string>, interval: int, k: nat, kind: ExcClass)
    requires |st.trace| <= k
    ensures Truncates(VisitAll(Some(Fault(k, kind)), runner, st, dbs, interval), VisitAll(None, runner, st, dbs, interval), k, kind)
    decreases |dbs|
  {
    if dbs != [] {
      var f := Some(Fault(k, kind));
      var a := Visit(f, runner, st, dbs[0], interval);
      var a0 := Visit(None, runner, st, dbs[0], interval);
      VisitTruncates(runner, st, dbs[0], interval, k, kind);
      var b := if a.Done? then AfterVisit(f, runner, a.st, dbs[1..], a.value, interval) else Exhausted(a.st);
      var b0 := if a0.Done? then AfterVisit(None, runner, a0.st, dbs[1..], a0.value, interval) else Exhausted(a0.st);
      if a0.Done? && |a0.st.trace| <= k {
        assert a == a0;
        var rr := VisitAll(f, runner, a0.st, dbs[1..], interval);
        var rr0 := VisitAll(None, runner, a0.st, dbs[1..], interval);
        VisitAllTruncates(runner, a0.st, dbs[1..], interval, k, kind);
        var e: Step<seq<nat>> := if rr.Done? then Done(rr.st, [a0.value] + rr.value) else Exhausted(rr.st);
        var e0: Step<seq<nat>> := if rr0.Done? then Done(rr0.st, [a0.value] + rr0.value) else Exhausted(rr0.st);
        MapTruncates(rr, rr0, e, e0, k, kind);
      }
      ThenTruncates(a, a0, b, b0, k, kind);
    }
  }

  /** The part of the `try` block after the listing. */
  function AfterListing(fault: Option<Fault>, runner: Runner, st: State, listing: seq<string>, interval: int): Step<seq<nat>> {
    match GetTestDatabases(listing, TestPrefix)
    case Failure(_) => Raised(st, Exception)
    case Success(dbs) => VisitAll(fault, runner, st, dbs, interval)
  }

  lemma TryBodyTruncates(runner: Runner, st: State, listing: seq<string>, interval: int, k: nat, kind: ExcClass)
    requires |st.trace| <= k
    ensures Truncates(TryBody(Some(Fault(k, kind)), runner, st, listing, interval), TryBody(None, runner, st, listing, interval), k, kind)
  {
    var f := Some(Fault(k, kind));
    var a := Perform(f, st, ListDatabases);
    var a0 := Perform(None, st, ListDatabases);
    PerformTruncates(st, ListDatabases, k, kind);
    if a0.Done? && |a0.st.trace| <= k && GetTestDatabases(listing, TestPrefix).Success? {
      VisitAllTruncates(runner, a0.st, Select(listing, TestPrefix), interval, k, kind);
    }
    ThenTruncates(a, a0, AfterListing(f, runner, a.st, listing, interval), AfterListing(None, runner, a0.st, listing, interval), k, kind);
  }

  /** The calls of the `try` block of `run` when nothing is scripted to
      fail. */
  function TryCalls(runner: Runner, env: Env, interval: int): seq<Event> {
    TryBody(None, runner, State(env.config, [], env.logs), env.listing, interval).st.trace
  }

  /** An exception raised by call `k` of the `try` block ends the loop
      there: no later database is visited, the calls made are exactly the
      first `k` of the fault-free run, the `finally` block restores the
      defaults with its two restarts, and the exception is swallowed if it
      is an `Exception` and propagated otherwise. */
  lemma FaultCutsRun(runner: Runner, env: Env, interval: int, k: nat, kind: ExcClass)
    requires env.fault == Some(Fault(k, kind))
    requires k < |TryCalls(runner, env, interval)|
    ensures var r := Run(runner, env, interval);
      r.trace == TryCalls(runner, env, interval)[..k] + RestoreEvents(runner, env.config) &&
      r.outcome == (if kind == Exception then Swallowed else Propagated) &&
      r.config == RestoredConfig(runner, env.config)
  {
    var st0 := State(env.config, [], env.logs);
    TryBodyTruncates(runner, st0, env.listing, interval, k, kind);
    var body := TryBody(env.fault, runner, st0, env.listing, interval);
    SwitchIgnoresRewritten(runner, body.st.config, env.config, Some(runner.defaultDatabase));
  }

  /** A fault scripted for a call the `try` block never reaches changes
      nothing but, possibly, the class of an exception raised at that very
      call. */
  lemma FaultBeyondTry(runner: Runner, env: Env, interval: int, k: nat, kind: ExcClass)
    requires env.fault == Some(Fault(k, kind))
    requires k >= |TryCalls(runner, env, interval)|
    ensures var r := Run(runner, env, interval);
      var r0 := Run(runner, env.(fault := None), interval);
      r.trace == r0.trace && r.config == r0.config && (r.outcome == Completed <==> r0.outcome == Completed)
  {
    var st0 := State(env.config, [], env.logs);
    TryBodyTruncates(runner, st0, env.listing, interval, k, kind);
  }

  /** The part of the cleanup loop after a database was cleaned. */
  function AfterClean(fault: Option<Fault>, st: State, dbs: seq<string>): Step<()>
    requires dbs != []
  {
    var marked := Perform(fault, st, AddFirstTimestamp(dbs[0], KeptMeasurement));
    if !marked.Done? then marked.Fail() else CleanAll(fault, marked.st, dbs[1..])
  }

  lemma {:induction false} CleanAllTruncates(st: State, dbs: seq<string>, k: nat, kind: ExcClass)
    requires |st.trace| <= k
    ensures Truncates(CleanAll(Some(Fault(k, kind)), st, dbs), CleanAll(None, st, dbs), k, kind)
    decreases |dbs|
  {
    if dbs != [] {
      var f := Some(Fault(k, kind));
      var e := CleanDatabase(dbs[0], [KeptMeasurement]);
      var a := Perform(f, st, e);
      var a0 := Perform(None, st, e);
      PerformTruncates(st, e, k, kind);
      if a0.Done? && |a0.st.trace| <= k {
        var m := AddFirstTimestamp(dbs[0], KeptMeasurement);
        var b := Perform(f, a0.st, m);
        var b0 := Perform(None, a0.st, m);
        PerformTruncates(a0.st, m, k, kind);
        if b0.Done? && |b0.st.trace| <= k {
          CleanAllTruncates(b0.st, dbs[1..], k, kind);
        }
        ThenTruncates(b, b0, CleanAll(f, b.st, dbs[1..]), CleanAll(None, b0.st, dbs[1..]), k, kind);
      }
      ThenTruncates(a, a0, AfterClean(f, a.st, dbs), AfterClean(None, a0.st, dbs), k, kind);
    }
  }

  /** `clean_up` has no handler: an exception at call `k` leaves it after
      exactly the first `k` calls of the fault-free cleanup, so the
      databases after the failing one stay uncleaned, and reaches the
      caller with its own class. */
  lemma CleanUpFault(st: State, listing: seq<string>, k: nat, kind: ExcClass)
    requires |st.trace| <= k < |CleanUp(None, st, listing).st.trace|
    ensures CleanUp(Some(Fault(k, kind)), st, listing) == Raised(st.(trace := CleanUp(None, st, listing).st.trace[..k]), kind)
  {
    var f := Some(Fault(k, kind));
    var a := Perform(f, st, ListDatabases);
    var a0 := Perform(None, st, ListDatabases);
    PerformTruncates(st, ListDatabases, k, kind);
    var found := GetTestDatabases(listing, TestPrefix);
    if a0.Done? && |a0.st.trace| <= k && found.Success? {
      var c := CleanAll(f, a0.st, found.value);
      var c0 := CleanAll(None, a0.st, found.value);
      CleanAllTruncates(a0.st, found.value, k, kind);
      CleanAllCalls(a0.st, found.value);
      assert c0.Done?;
      assert c.Raised? && c.st.trace == c0.st.trace[..k];
    }
  }
}

=== FILE: orchestrator.dfy ===
/** `AppRunner.run` and `AppRunner.clean_up`: discovery, the loop over the
    test databases inside `try`/`except Exception`/`finally`, and the
    cleanup pass over the same databases. */
module Orchestrator {
  import opened Common
  import opened Text
  import opened Discovery
  import opened AppConfig
  import opened Effects
  import opened Visiting

  /** The world a run meets: the config file's content when the run starts,
      the `SHOW DATABASES` listing, the scripted `docker logs` outputs, and
      the call that raises, if any. */
  datatype Env = Env(config: Config, listing: seq<string>, logs: seq<string>, fault: Option<Fault>)

  /** How `run` ended: the loop finished; an `Exception` was caught and
      printed; a `BaseException` went through the `finally` block and out of
      `run`; or the log script ran out while polling, where the source would
      still be waiting. */
  datatype Outcome = Completed | Swallowed | Propagated | StillPolling

  datatype RunResult = RunResult(config: Config, trace: seq<Event>, outcome: Outcome)

  /** The body of the `try` block: discovery, then the loop. */
  function TryBody(fault: Option<Fault>, runner: Runner, st: State, listing: seq<string>, interval: int): (r: Step<seq<nat>>)
    ensures st.trace <= r.st.trace
    ensures r.st.config.others == st.config.others
    ensures r.Raised? ==>
      RaisedBy(fault, r.kind, interval) ||
      (r.kind == Exception && GetTestDatabases(listing, TestPrefix).Failure?)
  {
    var listed := Perform(fault, st, ListDatabases);
    if !listed.Done? then listed.Fail()
    else match GetTestDatabases(listing, TestPrefix)
      case Failure(_) => Raised(listed.st, Exception)
      case Success(dbs) => VisitAll(fault, runner, listed.st, dbs, interval)
  }

  /** The calls of the `finally` block for config document `c`:
      `restore_config` writes the default database with its sub-directory
      and restarts (inside `switch_database`), writes the default results
      directory back, and `run` restarts once more. */
  function RestoreEvents(runner: Runner, c: Config): seq<Event> {
    [WriteConfig(RestoreFirstWrite(runner, c)), Restart, WriteConfig(RestoredConfig(runner, c)), Restart]
  }

  /** The `finally` block: no call in it is scripted to fail. */
  function Finally(runner: Runner, st: State): (r: State)
    ensures IsRestored(runner, r.config)
    ensures r.config.others == st.config.others
    ensures st.trace <= r.trace
  {
    State(RestoredConfig(runner, st.config), st.trace + RestoreEvents(runner, st.config), st.logs)
  }

  /** `AppRunner.run(check_interval_sec)`. */
  function Run(runner: Runner, env: Env, interval: int): (r: RunResult)
    ensures r.outcome != StillPolling ==> IsRestored(runner, r.config)
    ensures r.config.others == env.config.others
    ensures r.outcome != StillPolling ==>
      |r.trace| >= 4 && r.trace[|r.trace| - 4..] == RestoreEvents(runner, env.config)
    ensures r.outcome == Propagated ==> env.fault.Some? && env.fault.value.kind == BaseException
    ensures r.outcome == Swallowed ==>
      (env.fault.Some? && env.fault.value.kind == Exception) || SleepRejects(interval) ||
      forall x :: x in env.listing ==> !StartsWith(x, TestPrefix)
  {
    var body := TryBody(env.fault, runner, State(env.config, [], env.logs), env.listing, interval);
    if body.Exhausted? then RunResult(body.st.config, body.st.trace, StillPolling)
    else
      SwitchIgnoresRewritten(runner, body.st.config, env.config, Some(runner.defaultDatabase));
      var fin := Finally(runner, body.st);
      var outcome := if body.Done? then Completed else if body.kind == Exception then Swallowed else Propagated;
      RunResult(fin.config, fin.trace, outcome)
  }

  /** `e` writes the restored defaults. */
  predicate IsRestoreWrite(runner: Runner, e: Event) {
    e.WriteConfig? && IsRestored(runner, e.config)
  }

  /** Every config write of the `try` block selects one of the test
      databases; none of them writes the restored defaults. */
  lemma TryBodyWritesSelect(runner: Runner, env: Env, interval: int)
    ensures var body := TryBody(env.fault, runner, State(env.config, [], env.logs), env.listing, interval);
      forall i :: 0 <= i < |body.st.trace| ==> !IsRestoreWrite(runner, body.st.trace[i])
  {
    var st0 := State(env.config, [], env.logs);
    var body := TryBody(env.fault, runner, st0, env.listing, interval);
    var dbs := Select(env.listing, TestPrefix);
    var listed := Perform(env.fault, st0, ListDatabases);
    if listed.Done? {
      assert WritesSelect(runner, listed.st.trace, dbs);
      if GetTestDatabases(env.listing, TestPrefix).Success? {
        VisitAllWrites(env.fault, runner, listed.st, dbs, dbs, interval);
      }
    }
    assert WritesSelect(runner, body.st.trace, dbs);
    forall i | 0 <= i < |body.st.trace|
      ensures !IsRestoreWrite(runner, body.st.trace[i])
    {
      var e := body.st.trace[i];
      assert e in body.st.trace;
      if e.WriteConfig? {
        ResultsDirForDiffers(runner, e.config.database.value);
      }
    }
  }

  /** The `finally` block runs exactly once: a finished run's trace holds
      exactly one write of the restored defaults, the second-to-last call,
      followed by the final restart. */
  lemma RunRestoresOnce(runner: Runner, env: Env, interval: int)
    ensures var r := Run(runner, env, interval);
      r.outcome != StillPolling ==>
        forall i :: 0 <= i < |r.trace| ==> (IsRestoreWrite(runner, r.trace[i]) <==> i == |r.trace| - 2)
  {
    var body := TryBody(env.fault, runner, State(env.config, [], env.logs), env.listing, interval);
    var r := Run(runner, env, interval);
    if r.outcome != StillPolling {
      TryBodyWritesSelect(runner, env, interval);
      var tail := RestoreEvents(runner, body.st.config);
      ResultsDirForDiffers(runner, runner.defaultDatabase);
      assert r.trace == body.st.trace + tail;
      forall i | 0 <= i < |r.trace|
        ensures IsRestoreWrite(runner, r.trace[i]) <==> i == |r.trace| - 2
      {
        if i >= |body.st.trace| {
          assert r.trace[i] == tail[i - |body.st.trace|];
        }
      }
    }
  }

  /** A run still polling has not reached the `finally` block: nothing in
      its trace writes the restored defaults. */
  lemma RunStillPollingNotRestored(runner: Runner, env: Env, interval: int)
    ensures var r := Run(runner, env, interval);
      r.outcome == StillPolling ==> forall i :: 0 <= i < |r.trace| ==> !IsRestoreWrite(runner, r.trace[i])
  {
    TryBodyWritesSelect(runner, env, interval);
  }

  /** A fault-free `try` block that finishes listed the databases and
      visited every test database once, in listing order. */
  lemma TryBodyCalls(runner: Runner, env: Env, interval: int)
    requires env.fault.None?
    ensures var body := TryBody(env.fault, runner, State(env.config, [], env.logs), env.listing, interval);
      var dbs := Select(env.listing, TestPrefix);
      body.Done? ==>
        |body.value| == |dbs| &&
        body.st.trace == [ListDatabases] + Visits(runner, env.config, dbs, body.value, interval)
  {
    var st0 := State(env.config, [], env.logs);
    var listed := Perform(env.fault, st0, ListDatabases);
    var found := GetTestDatabases(env.listing, TestPrefix);
    assert listed.Done? && listed.st == State(env.config, [ListDatabases], env.logs);
    if found.Success? {
      var dbs := found.value;
      var body := VisitAll(env.fault, runner, listed.st, dbs, interval);
      assert TryBody(env.fault, runner, st0, env.listing, interval) == body;
      VisitAllCalls(env.fault, runner, listed.st, dbs, interval);
    }
  }

  /** Without a fault, a completed run listed the databases, visited every
      test database once in listing order, and restored; `polls` gives the
      failed checks of each visit. */
  lemma RunVisitsInOrder(runner: Runner, env: Env, interval: int) returns (polls: seq<nat>)
    requires env.fault.None?
    ensures var r := Run(runner, env, interval);
      var dbs := Select(env.listing, TestPrefix);
      r.outcome == Completed ==>
        |polls| == |dbs| &&
        r.trace == [ListDatabases] + Visits(runner, env.config, dbs, polls, interval) + RestoreEvents(runner, env.config)
  {
    var body := TryBody(env.fault, runner, State(env.config, [], env.logs), env.listing, interval);
    polls := if body.Done? then body.value else [];
    if body.Done? {
      TryBodyCalls(runner, env, interval);
      SwitchIgnoresRewritten(runner, body.st.config, env.config, Some(runner.defaultDatabase));
    }
  }

  /** A fault-free completed run restarts the container once per test
      database and twice more on the restore path: once inside
      `restore_config`'s switch and once explicitly. */
  lemma RunRestartCount(runner: Runner, env: Env, interval: int)
    requires env.fault.None?
    ensures var r := Run(runner, env, interval);
      r.outcome == Completed ==> multiset(r.trace)[Restart] == |Select(env.listing, TestPrefix)| + 2
  {
    var r := Run(runner, env, interval);
    if r.outcome == Completed {
      var polls := RunVisitsInOrder(runner, env, interval);
      var dbs := Select(env.listing, TestPrefix);
      VisitsRestartOnceEach(runner, env.config, dbs, polls, interval);
      assert multiset(RestoreEvents(runner, env.config))[Restart] == 2;
    }
  }

  /** Without a fault and with an interval `time.sleep` accepts nothing is
      propagated, and the exception `run` swallows is exactly the discovery
      failure. */
  lemma RunWithoutFault(runner: Runner, env: Env, interval: int)
    requires env.fault.None? && !SleepRejects(interval)
    ensures var r := Run(runner, env, interval);
      r.outcome != Propagated &&
      (r.outcome == Swallowed <==> forall x :: x in env.listing ==> !StartsWith(x, TestPrefix))
  {
  }

  /** With no fault and a rejected interval, visiting a non-empty list of
      databases raises an `Exception` at the first warm-up sleep. */
  lemma VisitAllRejects(runner: Runner, st: State, dbs: seq<string>, interval: int)
    requires dbs != [] && SleepRejects(interval)
    ensures var r := VisitAll(None, runner, st, dbs, interval); r.Raised? && r.kind == Exception
  {
    var switched := SwitchDatabase(None, runner, st, Some(dbs[0]));
    assert switched.Done?;
    assert Perform(None, switched.st, Sleep(interval)).Raised?;
  }

  /** With no fault and a rejected interval, a `try` block that finds a
      test database raises an `Exception`. */
  lemma TryBodyRejects(runner: Runner, st: State, listing: seq<string>, interval: int)
    requires SleepRejects(interval)
    requires exists x :: x in listing && StartsWith(x, TestPrefix)
    ensures var r := TryBody(None, runner, st, listing, interval); r.Raised? && r.kind == Exception
  {
    var x :| x in listing && StartsWith(x, TestPrefix);
    var dbs := Select(listing, TestPrefix);
    assert x in dbs;
    var listed := Perform(None, st, ListDatabases);
    VisitAllRejects(runner, listed.st, dbs, interval);
  }

  /** The complement of `RunWithoutFault`: an interval `time.sleep` rejects
      makes the warm-up sleep after the first switch raise, so a run with a
      test database to visit swallows that error. */
  lemma RunRejectedInterval(runner: Runner, env: Env, interval: int)
    requires env.fault.None? && SleepRejects(interval)
    requires exists x :: x in env.listing && StartsWith(x, TestPrefix)
    ensures Run(runner, env, interval).outcome == Swallowed
  {
    TryBodyRejects(runner, State(env.config, [], env.logs), env.listing, interval);
  }

  /** When no listed name carries the prefix, a fault-free run lists the
      databases, swallows the `ValueError`, and restores. */
  lemma RunWithoutTestDatabases(runner: Runner, env: Env, interval: int)
    requires env.fault.None?
    requires forall x :: x in env.listing ==> !StartsWith(x, TestPrefix)
    ensures Run(runner, env, interval) ==
      RunResult(RestoredConfig(runner, env.config), [ListDatabases] + RestoreEvents(runner, env.config), Swallowed)
  {
  }

  /** The measurement `clean_up` keeps in every test database. */
  const KeptMeasurement: string := "driveline_power_data"

  /** The calls of a fault-free `clean_up` loop over `dbs`. */
  function CleanEvents(dbs: seq<string>): seq<Event> {
    if dbs == [] then []
    else [CleanDatabase(dbs[0], [KeptMeasurement]), AddFirstTimestamp(dbs[0], KeptMeasurement)] + CleanEvents(dbs[1..])
  }

  /** The loop of `clean_up`: drop every measurement but the kept one, then
      re-add the kept measurement's first-timestamp marker. */
  function CleanAll(fault: Option<Fault>, st: State, dbs: seq<string>): (r: Step<()>)
    ensures r.Raised? || r.Done?
    ensures st.trace <= r.st.trace
    ensures r.st.config == st.config && r.st.logs == st.logs
    ensures r.Raised? ==> fault.Some? && fault.value.kind == r.kind
    decreases |dbs|
  {
    if dbs == [] then Done(st, ())
    else
      var cleaned := Perform(fault, st, CleanDatabase(dbs[0], [KeptMeasurement]));
      if !cleaned.Done? then cleaned.Fail()
      else
        var marked := Perform(fault, cleaned.st, AddFirstTimestamp(dbs[0], KeptMeasurement));
        if !marked.Done? then marked.Fail()
        else CleanAll(fault, marked.st, dbs[1..])
  }

  /** `AppRunner.clean_up()`; the value is the list of databases cleaned.
      No `try` surrounds it, so an exception leaves the databases after the
      failing call uncleaned. */
  function CleanUp(fault: Option<Fault>, st: State, listing: seq<string>): (r: Step<seq<string>>)
    ensures r.Raised? || r.Done?
    ensures st.trace <= r.st.trace
    ensures r.st.config == st.config && r.st.logs == st.logs
    ensures r.Raised? ==>
      (fault.Some? && fault.value.kind == r.kind) ||
      (r.kind == Exception && forall x :: x in listing ==> !StartsWith(x, TestPrefix))
  {
    var listed := Perform(fault, st, ListDatabases);
    if !listed.Done? then listed.Fail()
    else match GetTestDatabases(listing, TestPrefix)
      case Failure(_) => Raised(listed.st, Exception)
      case Success(dbs) =>
        var cleaned := CleanAll(fault, listed.st, dbs);
        if !cleaned.Done? then cleaned.Fail() else Done(cleaned.st, dbs)
  }

  /** A fault-free cleanup loop makes exactly the planned calls. */
  lemma {:induction false} CleanAllCalls(st: State, dbs: seq<string>)
    ensures CleanAll(None, st, dbs) == Done(st.(trace := st.trace + CleanEvents(dbs)), ())
    decreases |dbs|
  {
    if dbs != [] {
      var cleaned := Perform(None, st, CleanDatabase(dbs[0], [KeptMeasurement]));
      var marked := Perform(None, cleaned.st, AddFirstTimestamp(dbs[0], KeptMeasurement));
      CleanAllCalls(marked.st, dbs[1..]);
      var head := [CleanDatabase(dbs[0], [KeptMeasurement]), AddFirstTimestamp(dbs[0], KeptMeasurement)];
      assert marked.st.trace == st.trace + head;
      ConcatAssoc(st.trace, head, CleanEvents(dbs[1..]));
    }
  }

  /** Without a fault, `clean_up` cleans exactly the test databases, in
      listing order, each excluding only the kept measurement and then
      re-marking it; with no test database it fails after the listing, as
      discovery does. */
  lemma CleanUpWithoutFault(st: State, listing: seq<string>)
    ensures var r := CleanUp(None, st, listing);
      var dbs := Select(listing, TestPrefix);
      if dbs == [] then r == Raised(st.(trace := st.trace + [ListDatabases]), Exception)
      else r == Done(st.(trace := st.trace + [ListDatabases] + CleanEvents(dbs)), dbs)
  {
    var listed := Perform(None, st, ListDatabases);
    CleanAllCalls(listed.st, Select(listing, TestPrefix));
  }
}

=== FILE: scenarios.dfy ===
/** A worked scenario: defaults `db0` and `dir0`, the listing
    `prod, test_a, test_b`, an application that finishes at the first check,
    and a container restart that fails during the second switch. */
module Scenarios {
  import opened Common
  import opened Text
  import opened Discovery
  import opened AppConfig
  import opened Effects
  import opened Visiting
  import opened Orchestrator

  const Defaults := Runner("dir0", "db0", "app")
  const Listing: seq<string> := ["prod", "test_a", "test_b"]

  /** Call 6 is the restart of the switch to `test_b`. */
  const SecondRestart := Some(Fault(6, Exception))

  function Initial(others: map<KeyPath, string>): Config {
    Config(Some("db0"), Some("dir0"), others)
  }

  function AtA(others: map<KeyPath, string>): Config {
    Config(Some("test_a"), Some("dir0/test_a"), others)
  }

  function AtB(others: map<KeyPath, string>): Config {
    Config(Some("test_b"), Some("dir0/test_b"), others)
  }

  /** The calls made until the failing restart. */
  function CallsBeforeFailure(others: map<KeyPath, string>, interval: nat): seq<Event> {
    [ListDatabases, WriteConfig(AtA(others)), Restart, Sleep(interval), FetchLogs(interval), WriteConfig(AtB(others))]
  }

  lemma ScenarioDiscovery()
    ensures GetTestDatabases(Listing, TestPrefix) == Success(["test_a", "test_b"])
  {
    assert "prod"[0] != TestPrefix[0];
    assert StartsWith("test_a", TestPrefix) && StartsWith("test_b", TestPrefix);
    assert Select(Listing[2..], TestPrefix) == ["test_b"];
    assert Select(Listing[1..], TestPrefix) == ["test_a", "test_b"];
  }

  lemma ScenarioSwitches(others: map<KeyPath, string>)
    ensures SwitchedConfig(Defaults, Initial(others), Some("test_a")) == AtA(others)
    ensures SwitchedConfig(Defaults, AtA(others), Some("test_b")) == AtB(others)
  {
    assert "dir0" + "/" + "test_a" == "dir0/test_a";
    assert "dir0" + "/" + "test_b" == "dir0/test_b";
  }

  /** `test_a`: switch, warm up, and one check that sees the marker. */
  lemma ScenarioFirstVisit(others: map<KeyPath, string>, interval: nat)
    requires !SleepRejects(interval)
    ensures Visit(SecondRestart, Defaults, State(Initial(others), [ListDatabases], [CompletionMarker]), "test_a", interval) ==
      Done(State(AtA(others), CallsBeforeFailure(others, interval)[..5], []), 0)
  {
    ScenarioSwitches(others);
    var calls := CallsBeforeFailure(others, interval);
    var listed := State(Initial(others), [ListDatabases], [CompletionMarker]);
    var switched := State(AtA(others), calls[..3], [CompletionMarker]);
    assert SwitchDatabase(SecondRestart, Defaults, listed, Some("test_a")) == Done(switched, ());
    var warm := State(AtA(others), calls[..4], [CompletionMarker]);
    assert Perform(SecondRestart, switched, Sleep(interval)) == Done(warm, ());
    var polled := State(AtA(others), calls[..5], []);
    assert IsRunComplete(CompletionMarker) by {
      MarkerCompletes("", "");
      assert "" + CompletionMarker + "" == CompletionMarker;
    }
    assert CheckRun(SecondRestart, warm, interval) == Done(polled, true);
  }

  /** `test_b`: the config write goes through, the restart raises. */
  lemma ScenarioSecondVisit(others: map<KeyPath, string>, interval: nat)
    requires !SleepRejects(interval)
    ensures Visit(SecondRestart, Defaults, State(AtA(others), CallsBeforeFailure(others, interval)[..5], []), "test_b", interval) ==
      Raised(State(AtB(others), CallsBeforeFailure(others, interval), []), Exception)
  {
    ScenarioSwitches(others);
    var calls := CallsBeforeFailure(others, interval);
    var written := State(AtB(others), calls, []);
    assert Perform(SecondRestart, State(AtA(others), calls[..5], []), WriteConfig(AtB(others))) == Done(written, ());
  }

  /** The loop visits `test_a` and stops at the failing restart. */
  lemma ScenarioLoop(others: map<KeyPath, string>, interval: nat)
    requires !SleepRejects(interval)
    ensures VisitAll(SecondRestart, Defaults, State(Initial(others), [ListDatabases], [CompletionMarker]), ["test_a", "test_b"], interval) ==
      Raised(State(AtB(others), CallsBeforeFailure(others, interval), []), Exception)
  {
    var calls := CallsBeforeFailure(others, interval);
    var visitedA := State(AtA(others), calls[..5], []);
    var cut := State(AtB(others), calls, []);
    ScenarioFirstVisit(others, interval);
    ScenarioSecondVisit(others, interval);
    assert VisitAll(SecondRestart, Defaults, visitedA, ["test_b"], interval) == Raised(cut, Exception);
  }

  /** The `try` block stops at the failing restart. */
  lemma ScenarioTryBody(others: map<KeyPath, string>, interval: nat)
    requires !SleepRejects(interval)
    ensures TryBody(SecondRestart, Defaults, State(Initial(others), [], [CompletionMarker]), Listing, interval) ==
      Raised(State(AtB(others), CallsBeforeFailure(others, interval), []), Exception)
  {
    var start := State(Initial(others), [], [CompletionMarker]);
    var listed := State(Initial(others), [ListDatabases], [CompletionMarker]);
    ScenarioDiscovery();
    assert Perform(SecondRestart, start, ListDatabases) == Done(listed, ());
    assert TryBody(SecondRestart, Defaults, start, Listing, interval) ==
      VisitAll(SecondRestart, Defaults, listed, ["test_a", "test_b"], interval);
    ScenarioLoop(others, interval);
  }

  /** The run gives up on `test_b`, swallows the error, and still restores
      `db0` and `dir0` with the final restart. */
  lemma SecondRestartFails(others: map<KeyPath, string>, interval: nat)
    requires !SleepRejects(interval)
    ensures var r := Run(Defaults, Env(Initial(others), Listing, [CompletionMarker], SecondRestart), interval);
      r.outcome == Swallowed &&
      r.config == Initial(others) &&
      r.trace == CallsBeforeFailure(others, interval) + RestoreEvents(Defaults, Initial(others))
  {
    ScenarioTryBody(others, interval);
    SwitchIgnoresRewritten(Defaults, AtB(others), Initial(others), Some("db0"));
  }

  /** An interval too large for `time.sleep` fails the warm-up sleep after
      the first switch with an `OverflowError`; `run` swallows it and
      restores. */
  lemma OversizeIntervalSwallowed(others: map<KeyPath, string>)
    ensures var r := Run(Defaults, Env(Initial(others), ["test_a"], [CompletionMarker], None), 10000000000);
      r.outcome == Swallowed &&
      r.config == Initial(others) &&
      r.trace == [ListDatabases, WriteConfig(AtA(others)), Restart] + RestoreEvents(Defaults, Initial(others))
  {
    ScenarioSwitches(others);
    var listed := State(Initial(others), [ListDatabases], [CompletionMarker]);
    var switched := State(AtA(others), [ListDatabases, WriteConfig(AtA(others)), Restart], [CompletionMarker]);
    assert StartsWith("test_a", TestPrefix);
    SelectKeepsAll(["test_a"], TestPrefix);
    assert GetTestDatabases(["test_a"], TestPrefix) == Success(["test_a"]);
    assert SwitchDatabase(None, Defaults, listed, Some("test_a")) == Done(switched, ());
    assert Visit(None, Defaults, listed, "test_a", 10000000000) == Raised(switched, Exception);
    assert TryBody(None, Defaults, State(Initial(others), [], [CompletionMarker]), ["test_a"], 10000000000) == Raised(switched, Exception);
    SwitchIgnoresRewritten(Defaults, AtA(others), Initial(others), Some("db0"));
  }
}

=== FILE: text.dfy ===
/** The two string tests the runner relies on: Python's `str.startswith`
    and the substring operator `needle in s`. */
module Text {

  /** Python's `s.startswith(prefix)`. */
  predicate StartsWith(s: string, prefix: string) {
    |prefix| <= |s| && s[..|prefix|] == prefix
  }

  /** `needle` occurs in `s` beginning at index `i`. */
  ghost predicate OccursAt(s: string, needle: string, i: int) {
    0 <= i && i + |needle| <= |s| && s[i..i + |needle|] == needle
  }

  /** Reference meaning of the substring test: some occurrence exists. */
  ghost predicate HasSubstring(s: string, needle: string) {
    exists i :: OccursAt(s, needle, i)
  }

  /** `s` begins with `prefix` exactly when it is `prefix` followed by something. */
  lemma StartsWithIffSplit(s: string, prefix: string)
    ensures StartsWith(s, prefix) <==> exists rest :: s == prefix + rest
  {
    if StartsWith(s, prefix) {
      assert s == prefix + s[|prefix|..];
    }
    if exists rest :: s == prefix + rest {
      var rest :| s == prefix + rest;
      assert s[..|prefix|] == prefix;
    }
  }

  /** An occurrence in the tail of `s` is an occurrence in `s`, one place later,
      and every occurrence in `s` past index 0 comes from the tail. */
  lemma OccursInTail(s: string, needle: string)
    requires |s| > 0
    ensures forall i :: 0 <= i ==> (OccursAt(s[1..], needle, i) <==> OccursAt(s, needle, i + 1))
  {
    forall i | 0 <= i
      ensures OccursAt(s[1..], needle, i) <==> OccursAt(s, needle, i + 1)
    {
      if 0 <= i && i + |needle| <= |s[1..]| {
        assert s[1..][i..i + |needle|] == s[i + 1..i + 1 + |needle|];
      }
    }
  }

  /** Python's `needle in s`, scanning start positions left to right. The
      empty needle occurs in every string. */
  predicate Contains(s: string, needle: string)
    decreases |s|
  {
    StartsWith(s, needle) || (|s| > 0 && Contains(s[1..], needle))
  }

  /** The scan finds a match exactly when some occurrence exists. */
  lemma {:induction false} ContainsMeaning(s: string, needle: string)
    ensures Contains(s, needle) <==> HasSubstring(s, needle)
    decreases |s|
  {
    if StartsWith(s, needle) {
      assert OccursAt(s, needle, 0);
    } else if |s| == 0 {
      assert forall i :: !OccursAt(s, needle, i);
    } else {
      OccursInTail(s, needle);
      ContainsMeaning(s[1..], needle);
      if Contains(s[1..], needle) {
        var i :| OccursAt(s[1..], needle, i);
        assert OccursAt(s, needle, i + 1);
      }
      if HasSubstring(s, needle) {
        var j :| OccursAt(s, needle, j);
        assert j != 0;
        assert OccursAt(s[1..], needle, j - 1);
      }
    }
  }

  /** A needle with any text on either side is found. */
  lemma ContainsEmbedded(pre: string, needle: string, post: string)
    ensures Contains(pre + needle + post, needle)
  {
    var t := pre + needle + post;
    assert t[|pre|..|pre| + |needle|] == needle;
    assert OccursAt(t, needle, |pre|);
    ContainsMeaning(t, needle);
  }
}
